=== FILE: README.md ===
# Nevermore project tooling, modelled in Dafny

This project models the pure logic of three small command-line tools for the
Nevermore platform:

- **nevermore-scripts**, the deploy/log client. It resolves its settings from
  `nevermore.json`, where each field is type-guarded and falls back to a
  default. It derives the log-subscription URL from the GraphQL endpoint by
  rewriting `http://`/`https://` to `ws://`/`wss://`. It dispatches on the
  `deploy` or `log` sub-command. A deploy sends a `createWorker` mutation and,
  only after that succeeds, a `restartWorker` mutation.
- **create-nevermore-app**, the worker scaffolder. It copies a template and
  writes a generated `nevermore.json` and `package.json` into the new
  project. If the user asked for it, it then starts `npm i`.
- **create-nevermore-plugin**, the plugin scaffolder. It does the same for
  plugins, with author, contact details, a plugin type and permissions. It
  never starts an install.

JSON documents are values of `Json.Json`. An object is an ordered member
list, so generated documents keep `JSON.stringify`'s key order. Property
reads (`Json.Get`) return the last value written for a key, as `JSON.parse`
does.

Nothing is performed. Each run is modelled as a function. Its inputs are
the outcomes of everything outside the program: the files present, what
`JSON.parse` returns for a text (a function parameter), whether each mutation
succeeds, whether the template copy succeeds, and the install's exit code.
Its result is the sequence of effects the program would cause
(`Client.Effect`, `Scaffold.Step`).

Modules:

- `Wrappers`: `Option`.
- `Json`: the value type, `Keys`, `Get`, `Without` and their lemmas.
- `WebSocketUrl`: `httpUrlToWebSocketUrl`.
- `ClientConfig`: the configuration block.
- `Client`: dispatch and `createWorker`.
- `Scaffold`: the language choice and the step type, shared by both
  scaffolders.
- `CreateApp` and `CreatePlugin`: the two scaffolders.
- `Lifecycle`: lemmas about a scaffolded project read back by the client.

The client reads its configuration only from `nevermore.json`. The
`--config` value is stored in `dir` and never used
(`Client.ConfigFlagNeverRead`). Its only sub-commands are `deploy` and `log`,
and the endpoint comes only from the file. A failed `createWorker` or
`restartWorker` is caught and discarded without a message.

## Model

| member | source | states |
|---|---|---|
| WebSocketUrl.FirstMatchFrom | packages/nevermore-scripts/src/index.js:161 | the regex without `g` finds the leftmost position where `http://` or `https://` starts; it returns nothing exactly when no position matches |
| WebSocketUrl.ToWebSocketUrl | packages/nevermore-scripts/src/index.js:160-162 | when `http://` or `https://` occurs, everything before the leftmost occurrence is kept, its `http` becomes `ws`, and everything after it is kept |
| WebSocketUrl.UnchangedIffNoMatch | packages/nevermore-scripts/src/index.js:160-162 | the URL comes back unchanged exactly when it contains neither `http://` nor `https://`; otherwise the result is 2 characters shorter |
| WebSocketUrl.ToWebSocketUrlIsLeftmostRewrite | packages/nevermore-scripts/src/index.js:161 | the rewrite meets an independent declarative statement: either nothing matches and the URL is unchanged, or only the leftmost match has its `http` turned into `ws` |
| WebSocketUrl.LeftmostRewriteUnique | packages/nevermore-scripts/src/index.js:161 | that declarative statement allows only one result, so it fully determines the rewrite |
| WebSocketUrl.RewriteHttp | packages/nevermore-scripts/src/index.js:160-162 | `"http://" + r` becomes `"ws://" + r` for every `r`, so later `http://` substrings in `r` survive |
| WebSocketUrl.RewriteHttps | packages/nevermore-scripts/src/index.js:160-162 | `"https://" + r` becomes `"wss://" + r` for every `r` |
| WebSocketUrl.NoLowerCaseHUnchanged | packages/nevermore-scripts/src/index.js:161 | matching is case-sensitive: a URL with no lower-case `h` is returned unchanged |
| WebSocketUrl.UpperCaseSchemeKept | packages/nevermore-scripts/src/index.js:161 | `HTTPS://HOST/GRAPHQL` is not rewritten |
| WebSocketUrl.LeftmostOnly | packages/nevermore-scripts/src/index.js:161 | in `http://` + a + `http://` + b only the first scheme is rewritten; the later `http://` survives whatever a and b are |
| ClientConfig.Resolve | packages/nevermore-scripts/src/index.js:76-101 | each of `name`, `description`, `workerPath` and `graphqlEndpoint` is the document's value if that value is a string, else its default; `enabled` is the document's value if that value is a boolean, else `false` |
| ClientConfig.Load | packages/nevermore-scripts/src/index.js:68-104 | the error is reported exactly when `nevermore.json` is missing or does not parse; then every setting keeps its default (`"no-name"`, `""`, `""`, `""`, `false`); otherwise the settings are resolved from the parsed document |
| ClientConfig.NonObjectGivesDefaults | packages/nevermore-scripts/src/index.js:76-101 | a parsed value that is not an object (`null`, a string, an array, …) supplies no setting |
| ClientConfig.AppendMember | packages/nevermore-scripts/src/index.js:77-100 | settings resolve independently: a member with the right type sets its own setting; one with the wrong type resets it to the default; no other setting changes |
| ClientConfig.EnabledNeedsBoolean | packages/nevermore-scripts/src/index.js:98-100 | the string `"true"` does not enable the worker |
| Client.ConfigPath | packages/nevermore-scripts/src/index.js:62-66 | `dir` is the `--config` value when one is given, else `nevermore.json` |
| Client.Run | packages/nevermore-scripts/src/index.js:59-74 | a run with `--help`, `-h`, `--version` or a final `help` positional ends at argument parsing with one effect that is neither a read nor a request; every other run starts by reading `nevermore.json` |
| Client.HelpOrVersionExitsEarly | packages/nevermore-scripts/src/index.js:59-60 | with a help or version flag, or `help` as the last positional argument, nothing is read and nothing is sent, whatever the other arguments are |
| Client.TrailingHelpExits | packages/nevermore-scripts/src/index.js:59-60 | appending `help` to any positional arguments, `deploy` included, makes the run a bare help request |
| Client.ConfigFlagNeverRead | packages/nevermore-scripts/src/index.js:62-74 | runs that differ only in `--config` are identical, and a different `--config` path is never the path read |
| Client.Dispatch | packages/nevermore-scripts/src/index.js:116-132 | `deploy` is chosen exactly when `deploy` is among the positional arguments, `log` exactly when `log` is and `deploy` is not, and the usage error exactly when neither is |
| Client.CommandEffects | packages/nevermore-scripts/src/index.js:116-132 | the three branches: `deploy` reads the artifact and calls `createWorker`; `log` clears the console and subscribes, then ends only if the subscription fails; anything else is the usage error; its contract is carried by `Client.LogSubscribesOnly`, `Client.NoCommandNoRequest`, `Client.RestartOnlyAfterCreate` and `Client.DeploySendsConfiguredWorker` |
| Client.SubscribeToLog | packages/nevermore-scripts/src/index.js:164-192 | `subscribeToLog` opens one subscription through the WebSocket client, whose URL is the endpoint after `httpUrlToWebSocketUrl` (line 108); its contract is carried by `Client.CreateAndRestartOrder` and `Lifecycle.FreshWorkerDeploy` |
| Client.DeployTakesPrecedence | packages/nevermore-scripts/src/index.js:116-127 | with both `deploy` and `log` given, `deploy` runs |
| Client.LogSubscribesOnly | packages/nevermore-scripts/src/index.js:124-126 | `log` without `deploy` subscribes on the endpoint after `httpUrlToWebSocketUrl`, reads no artifact and sends no mutation |
| Client.NoCommandNoRequest | packages/nevermore-scripts/src/index.js:127-132 | with neither command, no subscription and no mutation is issued |
| Client.DeployEffects | packages/nevermore-scripts/src/index.js:116-123 | the `deploy` branch: read the artifact, report an error and stop, or call `createWorker`; its contract is carried by `Client.UnreadableArtifactAborts` and `Client.DeploySendsConfiguredWorker` |
| Client.UnreadableArtifactAborts | packages/nevermore-scripts/src/index.js:117-121 | in `deploy`, an unreadable artifact is reported, ends the run, and nothing is sent |
| Client.CreateAndRestart | packages/nevermore-scripts/src/index.js:134-158 | `createWorker`, with each mutation response handled only while the unawaited log subscription has not failed; its contract is carried by `Client.CreateAndRestartOrder` and `Client.RestartOnlyAfterCreate` |
| Client.Responses | packages/nevermore-scripts/src/index.js:144-157 | the two response handlers of `createWorker`: a successful creation is reported and the restart sent, a successful restart is reported, failures print nothing; each runs only while the process is alive; its contract is carried by `Client.ResponsesShape` and `Client.CreateAndRestartOrder` |
| Client.ResponsesShape | packages/nevermore-scripts/src/index.js:144-157 | the handlers send the restart only as their second effect, exactly when the creation succeeded while the process was alive, and never send a creation or a subscription |
| Client.CreateAndRestartOrder | packages/nevermore-scripts/src/index.js:134-192 | `createWorker` first subscribes on the rewritten endpoint, then sends one creation with the configured name, description, flag and code; the single restart comes after it and is sent exactly when the creation succeeded before a failing subscription ended the process; the run ends with the failure exactly when the subscription fails |
| Client.RestartOnlyAfterCreate | packages/nevermore-scripts/src/index.js:137-157 | in every run, a restart is preceded by a creation and happens only when creation succeeds; neither mutation is sent twice |
| Client.DeploySendsConfiguredWorker | packages/nevermore-scripts/src/index.js:116-192 | a `deploy` with a readable artifact sends the configured creation, and sends a restart exactly when the creation succeeds and the log subscription has not ended the process by then |
| Scaffold.IsTypescript | packages/create-nevermore-app/src/index.js:52 | the Typescript variant is chosen exactly when the answer equals `"Typescript (TS)"` |
| Scaffold.LanguageChoices | packages/create-nevermore-app/src/index.js:40-52 | the JS label selects Javascript, the TS label selects Typescript, and a differently-cased label selects Javascript |
| CreateApp.NevermoreJson | packages/create-nevermore-app/src/index.js:105-113 | `generateNevermoreJSON`; its contract is carried by `CreateApp.NevermoreJsonShape` and `Lifecycle.WorkerConfigRoundTrip` |
| CreateApp.PackageJson | packages/create-nevermore-app/src/index.js:115-168 | `generatePackageJSON`; its contract is carried by `CreateApp.PackageJsonCommonFields`, `CreateApp.DescriptionOnlyInTypescript`, `CreateApp.ScriptsAgree`, `CreateApp.PackageJsonDevDependencies`, `CreateApp.DevDependenciesDiffer` and `CreateApp.NothingElseDiffers` |
| CreateApp.NevermoreJsonShape | packages/create-nevermore-app/src/index.js:105-113 | the worker `nevermore.json` has exactly `name`, `description`, `workerPath`, `graphqlEndpoint`, `enabled`, in that order; they hold the package name, the description, `dist/worker.bundle.js`, `http://localhost:8000/graphql` and `true` |
| CreateApp.PackageJsonCommonFields | packages/create-nevermore-app/src/index.js:115-168 | both `package.json` variants carry the name, version `0.0.0`, `private: true` and the one dependency `react` |
| CreateApp.DescriptionOnlyInTypescript | packages/create-nevermore-app/src/index.js:116-147 | the Typescript `package.json` carries the description; the Javascript one has no `description` key |
| CreateApp.ScriptsAgree | packages/create-nevermore-app/src/index.js:122-154 | `scripts` is the same object in both variants, with keys `build-dev`, `build`, `deploy`, `deploy-dev`, `develop` |
| CreateApp.PackageJsonDevDependencies | packages/create-nevermore-app/src/index.js:129-162 | the generated `devDependencies` is the Typescript list in the Typescript variant and the Javascript list otherwise, so the next two rows hold of the written documents |
| CreateApp.DevDependenciesAdded | packages/create-nevermore-app/src/index.js:129-162 | `ts-loader` and `typescript` appear in the Typescript `devDependencies` only |
| CreateApp.DevDependenciesDiffer | packages/create-nevermore-app/src/index.js:129-162 | removing those two from the Typescript `devDependencies` gives exactly the Javascript ones, in order |
| CreateApp.NothingElseDiffers | packages/create-nevermore-app/src/index.js:115-168 | removing `description` and `devDependencies` makes the two variants identical |
| CreateApp.Create | packages/create-nevermore-app/src/index.js:51-74 | the prompt callback: copy the chosen template, then write the files; its contract is carried by `CreateApp.CreateOrdering` |
| CreateApp.WriteJsonToFolder | packages/create-nevermore-app/src/index.js:76-103 | `writeJSONToFolder`: both writes, then the optional install; its contract is carried by `CreateApp.CreateOrdering` and `CreateApp.CreatedMessageWhateverExit` |
| CreateApp.CreateOrdering | packages/create-nevermore-app/src/index.js:51-84 | the matching template is copied first. The JSON files are written only after a successful copy, `nevermore.json` first. Install starts iff the copy succeeded and it was requested, and after both writes |
| CreateApp.CreatedMessageWhateverExit | packages/create-nevermore-app/src/index.js:83-88 | after the install exits, the same "created" message is printed whatever the exit code |
| CreatePlugin.NevermoreJson | packages/create-nevermore-plugin/src/index.js:119-131 | `generateNevermoreJSON`; its contract is carried by `CreatePlugin.NevermoreJsonKeys`, `CreatePlugin.NevermoreJsonPassesAnswers`, `CreatePlugin.NevermoreJsonFixedFields` and `Lifecycle.PluginConfigAsSeenByClient` |
| CreatePlugin.NevermoreJsonKeys | packages/create-nevermore-plugin/src/index.js:119-131 | the plugin `nevermore.json` keys are `name`, `author`, `email`, `url`, `pluginType`, `permissions`, `pluginPath`, `frontendPath`, `enabled`, in that order |
| CreatePlugin.NevermoreJsonPassesAnswers | packages/create-nevermore-plugin/src/index.js:119-126 | name, author, email, url, plugin type and permissions pass through unchanged |
| CreatePlugin.NevermoreJsonFixedFields | packages/create-nevermore-plugin/src/index.js:127-129 | `pluginPath` is `dist/plugin.bundle.js`, `frontendPath` is `dist/frontend.bundle.js`, and `enabled` is `true` |
| CreatePlugin.NoDescriptionInNevermoreJson | packages/create-nevermore-plugin/src/index.js:112-113 | the plugin description never reaches `nevermore.json` |
| CreatePlugin.ChoicesWritten | packages/create-nevermore-plugin/src/index.js:62-73 | the plugin type written is one of `GENERIC`, `GAME`, `NETWORK_CONFIGURATOR`; every permission written is one of the seven offered |
| CreatePlugin.PackageJson | packages/create-nevermore-plugin/src/index.js:133-194 | `generatePackageJSON`; its contract is carried by `CreatePlugin.PackageJsonIdentity`, `CreatePlugin.PackageJsonCommonFields`, `CreatePlugin.DescriptionOnlyInTypescript`, `CreatePlugin.ScriptsAgree`, `CreatePlugin.PackageJsonDevDependencies` and `CreatePlugin.DevDependenciesDiffer` |
| CreatePlugin.PackageJsonIdentity | packages/create-nevermore-plugin/src/index.js:133-170 | both plugin `package.json` variants carry the name and the author |
| CreatePlugin.PackageJsonCommonFields | packages/create-nevermore-plugin/src/index.js:133-194 | both plugin variants carry version `0.0.0`, `private: true` and the one dependency `react` |
| CreatePlugin.DescriptionOnlyInTypescript | packages/create-nevermore-plugin/src/index.js:134-170 | only the Typescript plugin `package.json` carries the description |
| CreatePlugin.ScriptsAgree | packages/create-nevermore-plugin/src/index.js:141-180 | `scripts` is the same in both plugin variants, with the eight keys `build-js-dev`, `build-js`, `deploy`, `deploy-dev`, `run-local`, `build`, `log`, `develop` |
| CreatePlugin.PackageJsonDevDependencies | packages/create-nevermore-plugin/src/index.js:151-188 | the generated plugin `devDependencies` is the Typescript list in the Typescript variant and the Javascript list otherwise |
| CreatePlugin.DevDependenciesAdded | packages/create-nevermore-plugin/src/index.js:151-188 | `ts-loader` and `typescript` appear in the Typescript plugin `devDependencies` only |
| CreatePlugin.DevDependenciesDiffer | packages/create-nevermore-plugin/src/index.js:151-188 | removing those two from the Typescript plugin `devDependencies` gives exactly the Javascript ones, in order |
| CreatePlugin.Create | packages/create-nevermore-plugin/src/index.js:81-106 | the prompt callback: copy the chosen template, then write the files; its contract is carried by `CreatePlugin.CreateOrdering` |
| CreatePlugin.WriteJsonToFolder | packages/create-nevermore-plugin/src/index.js:108-117 | `writeJSONToFolder`: both writes, then the install hint; its contract is carried by `CreatePlugin.CreateOrdering` |
| CreatePlugin.CreateOrdering | packages/create-nevermore-plugin/src/index.js:81-116 | the template is copied first. Both JSON files are written only after a successful copy, `nevermore.json` first, followed by the "run npm install" hint. No install is ever started |
| Lifecycle.WorkerConfigRoundTrip | packages/nevermore-scripts/src/index.js:68-101 | the client reads back a generated worker `nevermore.json` as exactly the answers, `dist/worker.bundle.js`, the local endpoint and `enabled` |
| Lifecycle.PluginConfigAsSeenByClient | packages/nevermore-scripts/src/index.js:76-101 | from a plugin `nevermore.json` this client takes only the name and `enabled`; description, worker path and endpoint stay at their defaults |
| Lifecycle.FreshWorkerDeploy | packages/nevermore-scripts/src/index.js:116-143 | deploying a freshly scaffolded worker reads `dist/worker.bundle.js`, subscribes at `ws://localhost:8000/graphql`, and sends the answers, the code and `enabled: true` |

## Left out

- Interactive prompting is not modelled. Answers are inputs. Package-name
  validation is done by the external `package-name-regex` library, so no name
  is assumed valid or invalid.
- Copying, file reading and writing, and the `npm i` child process are not
  performed. Their outcomes are inputs. A failure of `fs.writeFile` (an
  unhandled rejection in both scaffolders) is not modelled: writes are taken
  to succeed.
- The install's stdout/stderr forwarding and its `error` event are not
  modelled. They are console I/O.
- `path.join` is not modelled. `Scaffold.ProjectDir(name)` is the name
  itself, which is what `path.join(".", name)` gives for a package name.
  `Scaffold.JoinPath` joins with `/`.
- The GraphQL and WebSocket transport are abstract. A mutation either
  succeeds or fails, and a subscription is one `Subscribe(url)` effect. A
  subscription error is an input that says after how many mutation responses
  it arrives; the unhandled rejection then ends the process, as Node 15 and
  later do (older Node versions only warn and carry on, which is not
  modelled).
  Delivered log records and their printing (`subscribeToLog`'s callbacks),
  `console.clear` text and `chalk` colouring are left out.
- The help and version texts printed by the argument parser are left out.
  Only the fact that such a run stops before reading anything is modelled.
- `generateID` is left out. It uses crypto randomness.
- The `SIGUSR2` handler and the process-wide `unsubscribe` handle are left
  out. They are signal handling.
- `JSON.stringify`'s tab-indented text and `JSON.parse` are not modelled.
  Documents are values, and parsing is a function parameter. The `Lifecycle`
  lemmas compare the documents as values; they do not model text that
  `JSON.stringify` writes and `JSON.parse` reads back.
- JSON numbers are `real`. The model uses them only as a type distinct from
  strings and booleans.
- The `webpack.config.js` templates, the plugin template's sample code and
  the banner file `eao_bird_circle.js` are left out. They are static or
  external content; the banner file is not part of this model.
- The plugin type and permissions are typed as the
  offered choices. Their order and any repetition are taken as given, not
  checked.
- Strings are Dafny strings, sequences of Unicode scalar values. JavaScript
  strings are sequences of UTF-16 code units, and `JSON.parse` can produce a
  lone surrogate in, say, `name` or `graphqlEndpoint`; such strings have no
  counterpart here. No property depends on it: the rewritten scheme is ASCII.

=== FILE: client.dfy ===
/** Command dispatch and request sequencing of nevermore-scripts.

    After the configuration is read, the positional arguments choose what
    happens: `deploy` (which wins when both are given) reads the bundled
    worker and uploads it; `log` only subscribes to the log stream; anything
    else prints a usage error. An upload is one `createWorker` mutation, and
    only when it succeeds one `restartWorker` mutation; both failures are
    swallowed and nothing is retried.

    The log subscription's promise is neither awaited nor given a handler.
    When the subscription reports an error the promise is rejected with no
    one to catch it, and the process ends (the behaviour of Node 15 and
    later): whatever mutation response had not arrived by then is never
    handled.

    Before any of this, the argument parser handles `--help` (`-h`),
    `--version` and a final `help` positional itself: it prints and exits,
    so such a run reads no configuration and sends nothing.

    Requests are not performed here: the outcome of each mutation is an input
    (`Remote`), and the run is the sequence of observable effects it causes. */
module Client {
  import opened Wrappers
  import opened Json
  import opened ClientConfig
  import WebSocketUrl

  datatype Command = Deploy | Log | NoCommand

  /** The sub-command named among the positional arguments. */
  function Dispatch(positional: seq<string>): (cmd: Command)
    ensures cmd == Deploy <==> "deploy" in positional
    ensures cmd == Log <==> "deploy" !in positional && "log" in positional
    ensures cmd == NoCommand <==> "deploy" !in positional && "log" !in positional
  {
    if "deploy" in positional then Deploy
    else if "log" in positional then Log
    else NoCommand
  }

  /** Whether each mutation would succeed if it were sent, and whether the
      log subscription reports an error: `Some(n)` means it does so once `n`
      mutation responses have been handled, `None` that it never does while
      the run lasts. */
  datatype Remote = Remote(createSucceeds: bool, restartSucceeds: bool, subscriptionError: Option<nat>)
  {
    /** The process is still alive when the `n`-th mutation response arrives. */
    predicate SubscriptionOutlasts(n: nat) {
      subscriptionError.None? || n <= subscriptionError.value
    }
  }

  datatype Effect =
    | ReadConfig(path: string)
    | ConfigError
    | ReadArtifact(path: string)
    | ArtifactError
    | ClearConsole
      /** Opens the log subscription (after printing that the logger is connected). */
    | Subscribe(url: string)
    | CreateWorker(endpoint: string, name: string, description: string, code: string, enabled: bool)
    | Uploaded
    | RestartWorker(endpoint: string)
    | Restarted
    | UsageError
      /** The argument parser printed the help or version text and exited. */
    | HelpOrVersion
      /** The log subscription failed; the unhandled rejection ends the process. */
    | SubscriptionFailed
  {
    /** The effect talks to the remote platform. */
    predicate IsNetwork() {
      Subscribe? || CreateWorker? || RestartWorker?
    }
  }

  /** One invocation: positional arguments, the `--config` flag, whether
      `--help`, `-h` or `--version` was given, and the files present in the
      working directory. */
  datatype Invocation = Invocation(
    positional: seq<string>,
    configFlag: Option<string>,
    helpOrVersion: bool,
    files: map<string, string>)
  {
    /** The argument parser prints help or the version and exits: on a help
        or version flag, or when the last positional argument is `help`. */
    predicate ExitsAtParse() {
      helpOrVersion || (|positional| > 0 && positional[|positional| - 1] == "help")
    }
  }

  /** The variable `dir`: the `--config` value when given, else the default
      file name. It is computed but never used for reading. */
  function ConfigPath(flag: Option<string>): (dir: string)
    ensures flag.Some? ==> dir == flag.value
    ensures flag.None? ==> dir == ConfigFileName
  {
    flag.GetOr(ConfigFileName)
  }

  /** The log subscription, on the endpoint with its scheme rewritten. */
  function SubscribeToLog(cfg: Config): Effect {
    Subscribe(WebSocketUrl.ToWebSocketUrl(cfg.graphqlEndpoint))
  }

  /** The end of the run once the log subscription is open: nothing more
      happens, or the subscription fails and the process ends. */
  function SubscriptionEnd(remote: Remote): seq<Effect> {
    if remote.subscriptionError.Some? then [SubscriptionFailed] else []
  }

  /** `createWorker`: subscribe, send the creation mutation, and only on its
      success send the restart mutation. The first response is handled only
      if the process is still alive, and so is the second. */
  function CreateAndRestart(cfg: Config, code: string, remote: Remote): seq<Effect> {
    [ClearConsole, SubscribeToLog(cfg),
     CreateWorker(cfg.graphqlEndpoint, cfg.name, cfg.description, code, cfg.enabled)]
    + Responses(cfg, remote)
    + SubscriptionEnd(remote)
  }

  /** The handling of the mutation responses that arrive while the process
      is alive: on a successful creation, report it and send the restart;
      on a successful restart, report it. Failures print nothing. */
  function Responses(cfg: Config, remote: Remote): seq<Effect> {
    if remote.createSucceeds && remote.SubscriptionOutlasts(1)
    then [Uploaded, RestartWorker(cfg.graphqlEndpoint)]
         + (if remote.restartSucceeds && remote.SubscriptionOutlasts(2) then [Restarted] else [])
    else []
  }

  /** The `deploy` command: read the artifact at `workerPath`; a read error
      is reported and ends the command. */
  function DeployEffects(cfg: Config, files: map<string, string>, remote: Remote): seq<Effect> {
    [ReadArtifact(cfg.workerPath)]
    + if cfg.workerPath !in files then [ArtifactError]
      else CreateAndRestart(cfg, files[cfg.workerPath], remote)
  }

  function CommandEffects(cmd: Command, cfg: Config, files: map<string, string>, remote: Remote): seq<Effect> {
    match cmd
    case Deploy => DeployEffects(cfg, files, remote)
    case Log => [ClearConsole, SubscribeToLog(cfg)] + SubscriptionEnd(remote)
    case NoCommand => [UsageError]
  }

  /** A whole run of the client. A help or version request (a flag or a
      final `help` positional) ends the run before the configuration is
      read; every other run starts by reading `nevermore.json`. */
  function Run(inv: Invocation, parse: string -> Option<Json>, remote: Remote): (t: seq<Effect>)
    ensures inv.ExitsAtParse() ==> |t| == 1 && !t[0].ReadConfig? && !t[0].IsNetwork()
    ensures !inv.ExitsAtParse() ==> |t| >= 2 && t[0] == ReadConfig(ConfigFileName)
  {
    if inv.ExitsAtParse() then [HelpOrVersion] else
    var loaded := Load(inv.files, parse);
    [ReadConfig(ConfigFileName)]
    + (if loaded.reported then [ConfigError] else [])
    + CommandEffects(Dispatch(inv.positional), loaded.config, inv.files, remote)
  }

  /** The effects after reading the configuration. */
  lemma RunSplit(inv: Invocation, parse: string -> Option<Json>, remote: Remote)
    ensures var loaded := Load(inv.files, parse);
            var head := if loaded.reported then [ReadConfig(ConfigFileName), ConfigError]
                        else [ReadConfig(ConfigFileName)];
            Run(inv, parse, remote)
              == if inv.ExitsAtParse() then [HelpOrVersion]
                 else head + CommandEffects(Dispatch(inv.positional), loaded.config, inv.files, remote)
  {
  }

  /** `--help`, `-h`, `--version` and a final `help` positional end the run
      at argument parsing: no file is read, and nothing is sent, whatever the
      other arguments are. */
  lemma HelpOrVersionExitsEarly(inv: Invocation, parse: string -> Option<Json>, remote: Remote)
    requires inv.ExitsAtParse()
    ensures var t := Run(inv, parse, remote);
            forall i :: 0 <= i < |t| ==>
              !t[i].ReadConfig? && !t[i].ReadArtifact? && !t[i].IsNetwork()
  {
  }

  /** A `help` after any other positional arguments, `deploy` included,
      turns the run into a help request. */
  lemma {:induction false} TrailingHelpExits(positional: seq<string>, configFlag: Option<string>, helpOrVersion: bool,
                                             files: map<string, string>, parse: string -> Option<Json>, remote: Remote)
    ensures Run(Invocation(positional + ["help"], configFlag, helpOrVersion, files), parse, remote) == [HelpOrVersion]
  {
    var inv := Invocation(positional + ["help"], configFlag, helpOrVersion, files);
    assert inv.positional[|inv.positional| - 1] == "help";
  }

  // ----- properties of the dispatch -----

  /** `deploy` takes precedence over `log`. */
  lemma DeployTakesPrecedence(positional: seq<string>)
    requires "deploy" in positional && "log" in positional
    ensures Dispatch(positional) == Deploy
  {
  }

  /** The file read is always `nevermore.json`: the `--config` value never
      reaches the read, so runs differing only in it are identical. */
  lemma ConfigFlagNeverRead(inv: Invocation, flag: Option<string>, parse: string -> Option<Json>, remote: Remote)
    ensures Run(inv.(configFlag := flag), parse, remote) == Run(inv, parse, remote)
    ensures ConfigPath(flag) != ConfigFileName ==>
              Run(inv.(configFlag := flag), parse, remote)[0] != ReadConfig(ConfigPath(flag))
  {
  }

  /** With neither command, nothing is sent to the platform. */
  lemma {:induction false} NoCommandNoRequest(inv: Invocation, parse: string -> Option<Json>, remote: Remote)
    requires "deploy" !in inv.positional && "log" !in inv.positional
    ensures var t := Run(inv, parse, remote);
            forall i :: 0 <= i < |t| ==> !t[i].IsNetwork()
  {
    RunSplit(inv, parse, remote);
  }

  /** `log` without `deploy` clears the console and subscribes to the log
      stream on the rewritten endpoint; it reads no artifact and sends no
      mutation. */
  lemma {:induction false} LogSubscribesOnly(inv: Invocation, parse: string -> Option<Json>, remote: Remote)
    requires !inv.ExitsAtParse() && "log" in inv.positional && "deploy" !in inv.positional
    ensures var cfg := Load(inv.files, parse).config;
            var t := Run(inv, parse, remote);
            && Subscribe(WebSocketUrl.ToWebSocketUrl(cfg.graphqlEndpoint)) in t
            && (forall i :: 0 <= i < |t| ==> !t[i].CreateWorker? && !t[i].RestartWorker? && !t[i].ReadArtifact?)
  {
    RunSplit(inv, parse, remote);
  }

  /** In `deploy`, an unreadable artifact aborts before any request. */
  lemma {:induction false} UnreadableArtifactAborts(inv: Invocation, parse: string -> Option<Json>, remote: Remote)
    requires "deploy" in inv.positional
    requires Load(inv.files, parse).config.workerPath !in inv.files
    ensures var t := Run(inv, parse, remote);
            && (forall i :: 0 <= i < |t| ==> !t[i].IsNetwork())
            && (!inv.ExitsAtParse() ==> t[|t| - 1] == ArtifactError)
  {
    RunSplit(inv, parse, remote);
  }

  /** The mutations of an upload: the creation carries the configured name,
      description and flag and the artifact text, goes to the configured
      endpoint, and follows the subscription on the rewritten endpoint; the
      restart follows the creation and is sent exactly when the creation
      succeeded. */
  lemma {:induction false} CreateAndRestartOrder(cfg: Config, code: string, remote: Remote)
    ensures var t := CreateAndRestart(cfg, code, remote);
            && t[1] == Subscribe(WebSocketUrl.ToWebSocketUrl(cfg.graphqlEndpoint))
            && t[2] == CreateWorker(cfg.graphqlEndpoint, cfg.name, cfg.description, code, cfg.enabled)
            && (forall i :: 0 <= i < |t| && t[i].CreateWorker? ==> i == 2)
            && (forall i :: 0 <= i < |t| && t[i].Subscribe? ==> i == 1)
            && (forall j :: 0 <= j < |t| && t[j].RestartWorker? ==>
                  j == 4 && remote.createSucceeds && remote.SubscriptionOutlasts(1))
            && (remote.createSucceeds && remote.SubscriptionOutlasts(1) ==>
                  t[4] == RestartWorker(cfg.graphqlEndpoint))
            && (remote.subscriptionError.Some? <==> t[|t| - 1] == SubscriptionFailed)
  {
    var t := CreateAndRestart(cfg, code, remote);
    var mid := Responses(cfg, remote);
    var end := SubscriptionEnd(remote);
    ResponsesShape(cfg, remote);
    assert forall i :: 3 <= i < 3 + |mid| ==> t[i] == mid[i - 3];
    assert forall i :: 3 + |mid| <= i < |t| ==> t[i] == end[i - 3 - |mid|];
  }

  /** What the response handling can emit: no creation, subscription or
      failure, and the restart only as its second effect, exactly when the
      creation succeeded while the process was alive. */
  lemma ResponsesShape(cfg: Config, remote: Remote)
    ensures var mid := Responses(cfg, remote);
            && (forall i :: 0 <= i < |mid| ==>
                  !mid[i].CreateWorker? && !mid[i].Subscribe? && !mid[i].SubscriptionFailed?)
            && (forall i :: 0 <= i < |mid| && mid[i].RestartWorker? ==>
                  i == 1 && remote.createSucceeds && remote.SubscriptionOutlasts(1))
            && (remote.createSucceeds && remote.SubscriptionOutlasts(1) ==>
                  |mid| >= 2 && mid[1] == RestartWorker(cfg.graphqlEndpoint))
  {
  }

  /** The sequencing promise on a trace: a restart is preceded by a creation
      and happens only when creation succeeds, and neither mutation is sent
      twice. */
  ghost predicate Sequenced(t: seq<Effect>, remote: Remote) {
    && (forall j :: 0 <= j < |t| && t[j].RestartWorker? ==>
          remote.createSucceeds && exists i :: 0 <= i < j && t[i].CreateWorker?)
    && (forall i, j :: 0 <= i < |t| && 0 <= j < |t| && t[i].CreateWorker? && t[j].CreateWorker? ==> i == j)
    && (forall i, j :: 0 <= i < |t| && 0 <= j < |t| && t[i].RestartWorker? && t[j].RestartWorker? ==> i == j)
  }

  /** Effects that send no mutation can be put in front of a sequenced trace. */
  lemma {:induction false} SequencedAfterPrefix(head: seq<Effect>, body: seq<Effect>, remote: Remote)
    requires forall i :: 0 <= i < |head| ==> !head[i].CreateWorker? && !head[i].RestartWorker?
    requires Sequenced(body, remote)
    ensures Sequenced(head + body, remote)
  {
    var t := head + body;
    assert forall i :: |head| <= i < |t| ==> t[i] == body[i - |head|];
    forall j | 0 <= j < |t| && t[j].RestartWorker?
      ensures remote.createSucceeds && exists i :: 0 <= i < j && t[i].CreateWorker?
    {
      var i :| 0 <= i < j - |head| && body[i].CreateWorker?;
      assert t[i + |head|] == body[i];
    }
  }

  lemma {:induction false} CommandSequenced(cmd: Command, cfg: Config, files: map<string, string>, remote: Remote)
    ensures Sequenced(CommandEffects(cmd, cfg, files, remote), remote)
  {
    if cmd == Deploy && cfg.workerPath in files {
      var code := files[cfg.workerPath];
      var u := CreateAndRestart(cfg, code, remote);
      CreateAndRestartOrder(cfg, code, remote);
      assert Sequenced(u, remote) by {
        forall j | 0 <= j < |u| && u[j].RestartWorker?
          ensures remote.createSucceeds && exists i :: 0 <= i < j && u[i].CreateWorker?
        {
          assert u[2].CreateWorker?;
        }
      }
      SequencedAfterPrefix([ReadArtifact(cfg.workerPath)], u, remote);
    }
  }

  /** Restart is requested only after a successful creation, and each
      mutation is sent at most once: nothing is retried. */
  lemma {:induction false} RestartOnlyAfterCreate(inv: Invocation, parse: string -> Option<Json>, remote: Remote)
    ensures Sequenced(Run(inv, parse, remote), remote)
  {
    var loaded := Load(inv.files, parse);
    var head := if loaded.reported then [ReadConfig(ConfigFileName), ConfigError]
                else [ReadConfig(ConfigFileName)];
    RunSplit(inv, parse, remote);
    if inv.ExitsAtParse() {
      return;
    }
    CommandSequenced(Dispatch(inv.positional), loaded.config, inv.files, remote);
    SequencedAfterPrefix(head, CommandEffects(Dispatch(inv.positional), loaded.config, inv.files, remote), remote);
  }

  /** A `deploy` whose artifact is readable sends exactly the configured
      creation, and sends the restart exactly when the creation succeeds and
      the log subscription has not ended the process before the response.
      (A help or version request is no deploy at all; see
      `HelpOrVersionExitsEarly`.) */
  lemma {:induction false} DeploySendsConfiguredWorker(inv: Invocation, parse: string -> Option<Json>, remote: Remote)
    requires !inv.ExitsAtParse() && "deploy" in inv.positional
    requires Load(inv.files, parse).config.workerPath in inv.files
    ensures var cfg := Load(inv.files, parse).config;
            var t := Run(inv, parse, remote);
            && (exists i :: 0 <= i < |t|
                  && t[i] == CreateWorker(cfg.graphqlEndpoint, cfg.name, cfg.description,
                                          inv.files[cfg.workerPath], cfg.enabled))
            && ((exists j :: 0 <= j < |t| && t[j].RestartWorker?)
                  <==> remote.createSucceeds && remote.SubscriptionOutlasts(1))
  {
    var t := Run(inv, parse, remote);
    var loaded := Load(inv.files, parse);
    var cfg := loaded.config;
    var head := if loaded.reported then [ReadConfig(ConfigFileName), ConfigError]
                else [ReadConfig(ConfigFileName)];
    var code := inv.files[cfg.workerPath];
    var u := CreateAndRestart(cfg, code, remote);
    CreateAndRestartOrder(cfg, code, remote);
    var pre := head + [ReadArtifact(cfg.workerPath)];
    assert t == pre + u by {
      RunSplit(inv, parse, remote);
      assert CommandEffects(Dispatch(inv.positional), cfg, inv.files, remote)
          == [ReadArtifact(cfg.workerPath)] + u;
    }
    assert t[|pre| + 2] == u[2];
    assert SendsRestart(u) <==> remote.createSucceeds && remote.SubscriptionOutlasts(1) by {
      if remote.createSucceeds && remote.SubscriptionOutlasts(1) {
        assert u[4].RestartWorker?;
      }
    }
    SendsRestartAfterPrefix(pre, u);
  }

  /** The trace sends a restart mutation. */
  ghost predicate SendsRestart(t: seq<Effect>) {
    exists j :: 0 <= j < |t| && t[j].RestartWorker?
  }

  /** Effects without a restart in front of a trace do not change whether
      it sends one. */
  lemma {:induction false} SendsRestartAfterPrefix(head: seq<Effect>, body: seq<Effect>)
    requires forall i :: 0 <= i < |head| ==> !head[i].RestartWorker?
    ensures SendsRestart(head + body) <==> SendsRestart(body)
  {
    var t := head + body;
    if SendsRestart(body) {
      var j :| 0 <= j < |body| && body[j].RestartWorker?;
      assert t[|head| + j] == body[j];
    }
    if SendsRestart(t) {
      var j :| 0 <= j < |t| && t[j].RestartWorker?;
      assert t[j] == body[j - |head|];
    }
  }
}

=== FILE: client_config.dfy ===
/** Configuration resolution of nevermore-scripts.

    Five settings start from compiled-in defaults. The file `nevermore.json`
    is read and parsed; each setting is then overwritten on its own, and only
    by a value of the right type: `name`, `description`, `workerPath` and
    `graphqlEndpoint` by a string, `enabled` by a boolean. A missing or
    unparsable file is reported and leaves every default in place. */
module ClientConfig {
  import opened Wrappers
  import opened Json

  /** The one path the client ever reads its configuration from. */
  const ConfigFileName: string := "nevermore.json"

  datatype Config = Config(
    name: string,
    description: string,
    workerPath: string,
    graphqlEndpoint: string,
    enabled: bool)

  const Defaults: Config := Config("no-name", "", "", "", false)

  /** `config.<key>` on a parsed value. Only an object has these properties;
      on `null`, a string, a number, a boolean or an array the read is
      `undefined`. */
  function Property(doc: Json, key: string): Option<Json> {
    if doc.JObject? then Get(doc.members, key) else None
  }

  predicate IsString(v: Option<Json>) { v.Some? && v.value.JString? }

  predicate IsBool(v: Option<Json>) { v.Some? && v.value.JBool? }

  /** The value a string setting takes: the document's string if it has one
      under `key`, otherwise the default. */
  ghost predicate ResolvedString(doc: Json, key: string, default: string, v: string) {
    Property(doc, key) == Some(JString(v)) || (!IsString(Property(doc, key)) && v == default)
  }

  /** The value a boolean setting takes, likewise. */
  ghost predicate ResolvedBool(doc: Json, key: string, default: bool, v: bool) {
    Property(doc, key) == Some(JBool(v)) || (!IsBool(Property(doc, key)) && v == default)
  }

  function StringSetting(doc: Json, key: string, default: string): string {
    var p := Property(doc, key);
    if IsString(p) then p.value.s else default
  }

  function BoolSetting(doc: Json, key: string, default: bool): bool {
    var p := Property(doc, key);
    if IsBool(p) then p.value.b else default
  }

  /** Settings taken from a successfully parsed document. */
  function Resolve(doc: Json): (c: Config)
    ensures ResolvedString(doc, "name", Defaults.name, c.name)
    ensures ResolvedString(doc, "description", Defaults.description, c.description)
    ensures ResolvedString(doc, "workerPath", Defaults.workerPath, c.workerPath)
    ensures ResolvedString(doc, "graphqlEndpoint", Defaults.graphqlEndpoint, c.graphqlEndpoint)
    ensures ResolvedBool(doc, "enabled", Defaults.enabled, c.enabled)
  {
    Config(
      StringSetting(doc, "name", Defaults.name),
      StringSetting(doc, "description", Defaults.description),
      StringSetting(doc, "workerPath", Defaults.workerPath),
      StringSetting(doc, "graphqlEndpoint", Defaults.graphqlEndpoint),
      BoolSetting(doc, "enabled", Defaults.enabled))
  }

  /** What reading the configuration produced: the settings, and whether the
      "invalid JSON or doesn't exist" error was reported. */
  datatype Loaded = Loaded(config: Config, reported: bool)

  /** Reads `nevermore.json` from `files` and parses it with `parse`, the
      model of `JSON.parse` (`None` when it throws). */
  function Load(files: map<string, string>, parse: string -> Option<Json>): (r: Loaded)
    ensures r.reported <==> ConfigFileName !in files || parse(files[ConfigFileName]).None?
    ensures r.reported ==> r.config == Defaults
    ensures !r.reported ==> r.config == Resolve(parse(files[ConfigFileName]).value)
  {
    if ConfigFileName !in files then Loaded(Defaults, true)
    else match parse(files[ConfigFileName])
      case None => Loaded(Defaults, true)
      case Some(doc) => Loaded(Resolve(doc), false)
  }

  /** A parsed value that is not an object supplies no setting at all. */
  lemma NonObjectGivesDefaults(doc: Json)
    requires !doc.JObject?
    ensures Resolve(doc) == Defaults
  {
  }

  /** Settings are resolved independently. Adding a member `(k, v)` at the
      end of the document sets the setting named `k` to `v` when `v` has that
      setting's type and back to its default when it has not (the last
      member with a key wins), and leaves every other setting as it was. */
  lemma {:induction false} AppendMember(ms: seq<Member>, k: string, v: Json)
    ensures var before := Resolve(JObject(ms));
            var after := Resolve(JObject(ms + [(k, v)]));
            && after.name == (if k != "name" then before.name
                              else if v.JString? then v.s else Defaults.name)
            && after.description == (if k != "description" then before.description
                                     else if v.JString? then v.s else Defaults.description)
            && after.workerPath == (if k != "workerPath" then before.workerPath
                                    else if v.JString? then v.s else Defaults.workerPath)
            && after.graphqlEndpoint == (if k != "graphqlEndpoint" then before.graphqlEndpoint
                                         else if v.JString? then v.s else Defaults.graphqlEndpoint)
            && after.enabled == (if k != "enabled" then before.enabled
                                 else if v.JBool? then v.b else Defaults.enabled)
  {
    AppendRead(ms, k, v, "name");
    AppendRead(ms, k, v, "description");
    AppendRead(ms, k, v, "workerPath");
    AppendRead(ms, k, v, "graphqlEndpoint");
    AppendRead(ms, k, v, "enabled");
  }

  /** The property read of `key` after appending `(k, v)`. */
  lemma {:induction false} AppendRead(ms: seq<Member>, k: string, v: Json, key: string)
    ensures Property(JObject(ms + [(k, v)]), key) == if key == k then Some(v) else Property(JObject(ms), key)
  {
    if key == k {
      GetLast(ms + [(k, v)], |ms|);
    } else {
      GetAppendOther(ms, (k, v), key);
    }
  }

  /** A wrong-typed `enabled` (the string "true", say) leaves it disabled. */
  lemma EnabledNeedsBoolean(ms: seq<Member>)
    requires Get(ms, "enabled") == Some(JString("true"))
    ensures !Resolve(JObject(ms)).enabled
  {
  }
}

=== FILE: create_app.dfy ===
/** create-nevermore-app: scaffolds a worker project.

    The template matching the language answer is copied into the project
    directory; only when the copy succeeded are `nevermore.json` and
    `package.json` written, in that order; only then, and only when asked,
    is `npm i` started, and its exit prints the "created" message whatever
    the exit code. */
module CreateApp {
  import opened Wrappers
  import opened Json
  import opened Scaffold

  const WorkerPath: string := "dist/worker.bundle.js"
  /** The endpoint written into new projects: `http://localhost:8000/graphql`. */
  const LocalEndpoint: string := "http://" + LocalHost
  const LocalHost: string := "localhost:8000/graphql"

  datatype Answers = Answers(name: string, description: string, language: string, runNpmInstall: bool)

  /** The worker's `nevermore.json`. */
  function NevermoreJson(name: string, description: string): Json {
    JObject([
      ("name", JString(name)),
      ("description", JString(description)),
      ("workerPath", JString(WorkerPath)),
      ("graphqlEndpoint", JString(LocalEndpoint)),
      ("enabled", JBool(true))])
  }

  /** The `scripts` entries, the same in both variants. */
  const Scripts: seq<Member> := [
    ("build-dev", JString("webpack --mode=development")),
    ("build", JString("webpack --mode=production")),
    ("deploy", JString("npm run build && nevermore-scripts deploy")),
    ("deploy-dev", JString("npm run build-dev && nevermore-scripts deploy")),
    ("develop", JString("nodemon"))]

  /** The Typescript `devDependencies`; the Javascript variant lacks the
      `ts-loader` and `typescript` entries. */
  const TsDevDependencies: seq<Member> := [
    ("@types/react", JString("^17.0.11")),
    ("@nevermore-fms/scripts", JString("^0.0.1")),
    ("@nevermore-fms/worker-types", JString("^0.0.1")),
    ("nodemon", JString("2.0.4")),
    ("ts-loader", JString("^9.2.3")),
    ("typescript", JString("^4.3.4")),
    ("webpack", JString("^5.42.0")),
    ("webpack-cli", JString("^4.7.2"))]

  const JsDevDependencies: seq<Member> := [
    ("@types/react", JString("^17.0.11")),
    ("@nevermore-fms/scripts", JString("^0.0.1")),
    ("@nevermore-fms/worker-types", JString("^0.0.1")),
    ("nodemon", JString("2.0.4")),
    ("webpack", JString("^5.42.0")),
    ("webpack-cli", JString("^4.7.2"))]

  const Dependencies: seq<Member> := [("react", JString("^17.0.2"))]

  /** The worker's `package.json`; the Typescript variant alone carries the
      description. */
  function PackageJson(name: string, description: string, isTypescript: bool): Json {
    if isTypescript then
      JObject([
        ("name", JString(name)),
        ("version", JString("0.0.0")),
        ("description", JString(description)),
        ("private", JBool(true)),
        ("scripts", JObject(Scripts)),
        ("devDependencies", JObject(TsDevDependencies)),
        ("dependencies", JObject(Dependencies))])
    else
      JObject([
        ("name", JString(name)),
        ("version", JString("0.0.0")),
        ("private", JBool(true)),
        ("scripts", JObject(Scripts)),
        ("devDependencies", JObject(JsDevDependencies)),
        ("dependencies", JObject(Dependencies))])
  }

  function TemplateDir(isTypescript: bool): string {
    if isTypescript then "templates/nevermore-worker-ts" else "templates/nevermore-worker"
  }

  function CopyErrorMessage(isTypescript: bool): string {
    if isTypescript then "Couldn't copy TS template! Error:" else "Couldn't copy JS template! Error:"
  }

  function InstallCommand(outPath: string): string {
    "npm i --cwd " + outPath + " --prefix " + outPath
  }

  function CreatedMessage(name: string, outPath: string): string {
    "The worker " + name + " has been created at \"" + outPath + "\"!"
  }

  /** `writeJSONToFolder`. */
  function WriteJsonToFolder(outPath: string, name: string, description: string, isTypescript: bool,
                             runNpmInstall: bool, installExit: Option<int>): seq<Step> {
    [Write(JoinPath(outPath, "nevermore.json"), NevermoreJson(name, description)),
     Write(JoinPath(outPath, "package.json"), PackageJson(name, description, isTypescript))]
    + if runNpmInstall then
        [StartInstall(InstallCommand(outPath)), InstallExited(installExit), Print(CreatedMessage(name, outPath))]
      else []
  }

  /** A whole scaffolding run, given the answers, whether the template copy
      succeeds, and the exit code the install would report. */
  function Create(a: Answers, copySucceeds: bool, installExit: Option<int>): seq<Step> {
    var isTypescript := IsTypescript(a.language);
    var outPath := ProjectDir(a.name);
    [Copy(TemplateDir(isTypescript), outPath)]
    + if !copySucceeds then [CopyFailed(CopyErrorMessage(isTypescript))]
      else WriteJsonToFolder(outPath, a.name, a.description, isTypescript, a.runNpmInstall, installExit)
  }

  // ----- properties of the generated documents -----

  /** The worker `nevermore.json` holds, in this order and each once, the
      package name, the description, the bundle path, the local endpoint and
      `enabled: true`. */
  lemma NevermoreJsonShape(name: string, description: string)
    ensures var doc := NevermoreJson(name, description);
            && doc.JObject?
            && Keys(doc.members) == ["name", "description", "workerPath", "graphqlEndpoint", "enabled"]
            && DistinctKeys(doc.members)
            && Get(doc.members, "name") == Some(JString(name))
            && Get(doc.members, "description") == Some(JString(description))
            && Get(doc.members, "workerPath") == Some(JString(WorkerPath))
            && Get(doc.members, "graphqlEndpoint") == Some(JString(LocalEndpoint))
            && Get(doc.members, "enabled") == Some(JBool(true))
  {
    var ms := NevermoreJson(name, description).members;
    assert Keys(ms) == ["name", "description", "workerPath", "graphqlEndpoint", "enabled"];
    GetDistinct(ms, 0);
    GetDistinct(ms, 1);
    GetDistinct(ms, 2);
    GetDistinct(ms, 3);
    GetDistinct(ms, 4);
  }

  /** Both variants carry the package name, version `0.0.0`,
      `private: true` and the single `react` dependency. */
  lemma PackageJsonCommonFields(name: string, description: string, isTypescript: bool)
    ensures var ms := PackageJson(name, description, isTypescript).members;
            && Get(ms, "name") == Some(JString(name))
            && Get(ms, "version") == Some(JString("0.0.0"))
            && Get(ms, "private") == Some(JBool(true))
            && Get(ms, "dependencies") == Some(JObject([("react", JString("^17.0.2"))]))
  {
    var ms := PackageJson(name, description, isTypescript).members;
    GetLast(ms, 0);
    GetLast(ms, 1);
    GetLast(ms, |ms| - 1);
    if isTypescript {
      GetLast(ms, 3);
    } else {
      GetLast(ms, 2);
    }
  }

  /** Only the Typescript variant carries the description. */
  lemma DescriptionOnlyInTypescript(name: string, description: string, isTypescript: bool)
    ensures var ms := PackageJson(name, description, isTypescript).members;
            && (isTypescript ==> Get(ms, "description") == Some(JString(description)))
            && (!isTypescript ==> "description" !in Keys(ms))
  {
    if isTypescript {
      GetLast(PackageJson(name, description, isTypescript).members, 2);
    }
  }

  /** The `scripts` object is the same in both variants, with the keys
      `build-dev`, `build`, `deploy`, `deploy-dev`, `develop`. */
  lemma ScriptsAgree(name: string, description: string)
    ensures var ts := PackageJson(name, description, true).members;
            var js := PackageJson(name, description, false).members;
            && Get(ts, "scripts") == Get(js, "scripts")
            && Get(ts, "scripts") == Some(JObject(Scripts))
            && Keys(Scripts) == ["build-dev", "build", "deploy", "deploy-dev", "develop"]
  {
    GetLast(PackageJson(name, description, true).members, 4);
    GetLast(PackageJson(name, description, false).members, 3);
  }

  /** The generated `devDependencies` member is the Typescript list in the
      Typescript variant and the Javascript list otherwise, so the two facts
      below hold of the written documents. */
  lemma PackageJsonDevDependencies(name: string, description: string, isTypescript: bool)
    ensures Get(PackageJson(name, description, isTypescript).members, "devDependencies")
            == Some(JObject(if isTypescript then TsDevDependencies else JsDevDependencies))
  {
    if isTypescript {
      GetLast(PackageJson(name, description, true).members, 5);
    } else {
      GetLast(PackageJson(name, description, false).members, 4);
    }
  }

  /** The Typescript `devDependencies` are the Javascript ones plus
      `ts-loader` and `typescript`. */
  lemma DevDependenciesAdded()
    ensures Get(TsDevDependencies, "ts-loader") == Some(JString("^9.2.3"))
    ensures Get(TsDevDependencies, "typescript") == Some(JString("^4.3.4"))
    ensures Get(JsDevDependencies, "ts-loader") == None
    ensures Get(JsDevDependencies, "typescript") == None
  {
    GetLast(TsDevDependencies, 4);
    GetLast(TsDevDependencies, 5);
    GetAbsent(JsDevDependencies, "ts-loader");
    GetAbsent(JsDevDependencies, "typescript");
  }

  /** Removing `ts-loader` and `typescript` from the Typescript
      `devDependencies` leaves exactly the Javascript ones, in order. */
  lemma DevDependenciesDiffer()
    ensures Without(TsDevDependencies, {"ts-loader", "typescript"}) == JsDevDependencies
  {
    WithoutRun(TsDevDependencies, {"ts-loader", "typescript"}, 4, 6);
    assert TsDevDependencies[..4] + TsDevDependencies[6..] == JsDevDependencies;
  }

  /** Two member lists that agree everywhere except that the first carries an
      extra `description` at position 2 and the two differ at their
      `devDependencies` lose their difference once those keys are removed. */
  lemma {:induction false} SameApartFrom(ts: seq<Member>, js: seq<Member>)
    requires |ts| == 7 && |js| == 6
    requires ts[..2] == js[..2] && ts[3..5] == js[2..4] && ts[6] == js[5]
    requires ts[2].0 == "description" && ts[5].0 == "devDependencies" && js[4].0 == "devDependencies"
    requires forall i | 0 <= i < |js| && i != 4 :: js[i].0 !in {"description", "devDependencies"}
    ensures Without(ts, {"description", "devDependencies"}) == Without(js, {"devDependencies"})
  {
    var tsKs := {"description", "devDependencies"};
    var jsKs := {"devDependencies"};
    var a, b, c := ts[..2], ts[3..5], ts[6..];
    assert ts == a + [ts[2]] + b + [ts[5]] + c;
    assert js == a + b + [js[4]] + c;
    WithoutAppend(a + [ts[2]] + b + [ts[5]], c, tsKs);
    WithoutAppend(a + [ts[2]] + b, [ts[5]], tsKs);
    WithoutAppend(a + [ts[2]], b, tsKs);
    WithoutAppend(a, [ts[2]], tsKs);
    WithoutAppend(a + b + [js[4]], c, jsKs);
    WithoutAppend(a + b, [js[4]], jsKs);
    WithoutAppend(a, b, jsKs);
    WithoutNone(a, tsKs);
    WithoutNone(b, tsKs);
    WithoutNone(c, tsKs);
    WithoutNone(a, jsKs);
    WithoutNone(b, jsKs);
    WithoutNone(c, jsKs);
  }

  /** Apart from the description and those two development dependencies the
      two variants are identical. */
  lemma NothingElseDiffers(name: string, description: string)
    ensures var ts := PackageJson(name, description, true).members;
            var js := PackageJson(name, description, false).members;
            Without(ts, {"description", "devDependencies"}) == Without(js, {"devDependencies"})
  {
    var ts := PackageJson(name, description, true).members;
    var js := PackageJson(name, description, false).members;
    SameApartFrom(ts, js);
  }

  // ----- properties of the scaffolding run -----

  /** The template is copied first, into the project directory, from the
      Typescript template exactly when Typescript was chosen. The two JSON
      files are written only after a successful copy, `nevermore.json`
      first; the install is started only when it was asked for, and only
      after both files are written. */
  lemma {:induction false} CreateOrdering(a: Answers, copySucceeds: bool, installExit: Option<int>)
    ensures var t := Create(a, copySucceeds, installExit);
            var ts := IsTypescript(a.language);
            var dir := ProjectDir(a.name);
            && t[0] == Copy(TemplateDir(ts), dir)
            && (TemplateDir(ts) == "templates/nevermore-worker-ts" <==> a.language == TypescriptChoice)
            && (forall i :: 0 <= i < |t| && t[i].Write? ==> copySucceeds)
            && (copySucceeds ==>
                  && t[1] == Write(JoinPath(dir, "nevermore.json"), NevermoreJson(a.name, a.description))
                  && t[2] == Write(JoinPath(dir, "package.json"), PackageJson(a.name, a.description, ts)))
            && ((exists i :: 0 <= i < |t| && t[i].StartInstall?) <==> copySucceeds && a.runNpmInstall)
            && (forall i, j :: 0 <= i < |t| && 0 <= j < |t| && t[i].Write? && t[j].StartInstall? ==> i < j)
  {
    var t := Create(a, copySucceeds, installExit);
    if copySucceeds && a.runNpmInstall {
      assert t[3].StartInstall?;
    }
  }

  /** When the install runs, its exit is followed by the "created" message,
      the same message whatever the exit code. */
  lemma {:induction false} CreatedMessageWhateverExit(a: Answers, exit1: Option<int>, exit2: Option<int>)
    requires a.runNpmInstall
    ensures var t1 := Create(a, true, exit1);
            var t2 := Create(a, true, exit2);
            && |t1| == |t2| == 6
            && t1[4] == InstallExited(exit1)
            && t1[5] == t2[5] == Print(CreatedMessage(a.name, ProjectDir(a.name)))
  {
  }
}

=== FILE: create_plugin.dfy ===
/** create-nevermore-plugin: scaffolds a plugin project.

    Like the worker scaffolder, but the answers also name an author, a
    contact email, a website, a plugin type and a list of permissions; the
    description goes only into `package.json`; and no install is ever
    started: the run ends by asking the user to run `npm install`. */
module CreatePlugin {
  import opened Wrappers
  import opened Json
  import opened Scaffold

  /** The three plugin types offered by the prompt. */
  datatype PluginType = Generic | Game | NetworkConfigurator {
    function Label(): string {
      match this
      case Generic => "GENERIC"
      case Game => "GAME"
      case NetworkConfigurator => "NETWORK_CONFIGURATOR"
    }
  }

  /** The seven permissions offered by the prompt. */
  datatype Permission = Database | Network | Endpoint | Socket | Teams | Scores | Schedules {
    function Label(): string {
      match this
      case Database => "database"
      case Network => "network"
      case Endpoint => "endpoint"
      case Socket => "socket"
      case Teams => "teams"
      case Scores => "scores"
      case Schedules => "schedules"
    }
  }

  const PluginTypeChoices: seq<string> := ["GENERIC", "GAME", "NETWORK_CONFIGURATOR"]
  const PermissionChoices: seq<string> :=
    ["database", "network", "endpoint", "socket", "teams", "scores", "schedules"]

  const PluginPath: string := "dist/plugin.bundle.js"
  const FrontendPath: string := "dist/frontend.bundle.js"

  /** The answers; the plugin type and the permissions can only be among
      the offered choices, in the order the prompt returns them. */
  datatype Answers = Answers(
    name: string,
    description: string,
    author: string,
    email: string,
    url: string,
    pluginType: PluginType,
    permissions: seq<Permission>,
    language: string)

  function PermissionLabels(ps: seq<Permission>): (r: seq<Json>)
    ensures |r| == |ps|
    ensures forall i :: 0 <= i < |ps| ==> r[i] == JString(ps[i].Label())
  {
    seq(|ps|, i requires 0 <= i < |ps| => JString(ps[i].Label()))
  }

  /** The plugin's `nevermore.json`. */
  function NevermoreJson(name: string, author: string, email: string, url: string,
                         pluginType: PluginType, permissions: seq<Permission>): Json {
    JObject([
      ("name", JString(name)),
      ("author", JString(author)),
      ("email", JString(email)),
      ("url", JString(url)),
      ("pluginType", JString(pluginType.Label())),
      ("permissions", JArray(PermissionLabels(permissions))),
      ("pluginPath", JString(PluginPath)),
      ("frontendPath", JString(FrontendPath)),
      ("enabled", JBool(true))])
  }

  /** The `scripts` entries, the same in both variants. */
  const Scripts: seq<Member> := [
    ("build-js-dev", JString("webpack --mode=development")),
    ("build-js", JString("webpack --mode=production")),
    ("deploy", JString("npm run build-js && nevermore-scripts deploy")),
    ("deploy-dev", JString("npm run build-js-dev && nevermore-scripts deploy")),
    ("run-local", JString("npm run build-js-dev && nevermore-scripts develop")),
    ("build", JString("npm run build-js")),
    ("log", JString("nevermore-scripts log")),
    ("develop", JString("nodemon"))]

  const TsDevDependencies: seq<Member> := [
    ("@types/react", JString("^17.0.11")),
    ("@nevermore-fms/scripts", JString("^0.2.0")),
    ("@nevermore-fms/plugin-types", JString("^0.2.1")),
    ("nodemon", JString("2.0.4")),
    ("ts-loader", JString("^9.2.3")),
    ("typescript", JString("^4.3.4")),
    ("webpack", JString("^5.42.0")),
    ("webpack-cli", JString("^4.7.2"))]

  const JsDevDependencies: seq<Member> := [
    ("@types/react", JString("^17.0.11")),
    ("@nevermore-fms/scripts", JString("^0.2.0")),
    ("@nevermore-fms/plugin-types", JString("^0.2.1")),
    ("nodemon", JString("2.0.4")),
    ("webpack", JString("^5.42.0")),
    ("webpack-cli", JString("^4.7.2"))]

  const Dependencies: seq<Member> := [("react", JString("^17.0.2"))]

  /** The plugin's `package.json`; the Typescript variant alone carries the
      description. */
  function PackageJson(name: string, author: string, description: string, isTypescript: bool): Json {
    if isTypescript then
      JObject([
        ("name", JString(name)),
        ("version", JString("0.0.0")),
        ("description", JString(description)),
        ("author", JString(author)),
        ("private", JBool(true)),
        ("scripts", JObject(Scripts)),
        ("devDependencies", JObject(TsDevDependencies)),
        ("dependencies", JObject(Dependencies))])
    else
      JObject([
        ("name", JString(name)),
        ("version", JString("0.0.0")),
        ("author", JString(author)),
        ("private", JBool(true)),
        ("scripts", JObject(Scripts)),
        ("devDependencies", JObject(JsDevDependencies)),
        ("dependencies", JObject(Dependencies))])
  }

  function TemplateDir(isTypescript: bool): string {
    if isTypescript then "templates/nevermore-plugin-ts" else "templates/nevermore-plugin"
  }

  function CopyErrorMessage(isTypescript: bool): string {
    if isTypescript then "Couldn't copy TS template! Error:" else "Couldn't copy JS template! Error:"
  }

  function InstallHint(name: string): string {
    "Please run 'npm install' within '" + name + "' to begin developing."
  }

  /** `writeJSONToFolder`. */
  function WriteJsonToFolder(outPath: string, a: Answers, isTypescript: bool): seq<Step> {
    [Write(JoinPath(outPath, "nevermore.json"),
           NevermoreJson(a.name, a.author, a.email, a.url, a.pluginType, a.permissions)),
     Write(JoinPath(outPath, "package.json"), PackageJson(a.name, a.author, a.description, isTypescript)),
     Print(InstallHint(a.name))]
  }

  /** A whole scaffolding run, given the answers and whether the template
      copy succeeds. */
  function Create(a: Answers, copySucceeds: bool): seq<Step> {
    var isTypescript := IsTypescript(a.language);
    var outPath := ProjectDir(a.name);
    [Copy(TemplateDir(isTypescript), outPath)]
    + if !copySucceeds then [CopyFailed(CopyErrorMessage(isTypescript))]
      else WriteJsonToFolder(outPath, a, isTypescript)
  }

  // ----- properties of the generated documents -----

  /** The plugin `nevermore.json` has, in this order, the name, author,
      email, url, plugin type and permissions, then the two bundle paths and
      `enabled`. */
  lemma NevermoreJsonKeys(name: string, author: string, email: string, url: string,
                          pluginType: PluginType, permissions: seq<Permission>)
    ensures Keys(NevermoreJson(name, author, email, url, pluginType, permissions).members)
            == ["name", "author", "email", "url", "pluginType", "permissions",
                "pluginPath", "frontendPath", "enabled"]
  {
  }

  /** The answers pass through to `nevermore.json` unchanged. */
  lemma NevermoreJsonPassesAnswers(name: string, author: string, email: string, url: string,
                                   pluginType: PluginType, permissions: seq<Permission>)
    ensures var ms := NevermoreJson(name, author, email, url, pluginType, permissions).members;
            && Get(ms, "name") == Some(JString(name))
            && Get(ms, "author") == Some(JString(author))
            && Get(ms, "email") == Some(JString(email))
            && Get(ms, "url") == Some(JString(url))
            && Get(ms, "pluginType") == Some(JString(pluginType.Label()))
            && Get(ms, "permissions") == Some(JArray(PermissionLabels(permissions)))
  {
    var ms := NevermoreJson(name, author, email, url, pluginType, permissions).members;
    assert Get(ms, "name") == Some(JString(name)) by { GetLast(ms, 0); }
    assert Get(ms, "author") == Some(JString(author)) by { GetLast(ms, 1); }
    assert Get(ms, "email") == Some(JString(email)) by { GetLast(ms, 2); }
    assert Get(ms, "url") == Some(JString(url)) by { GetLast(ms, 3); }
    assert Get(ms, "pluginType") == Some(JString(pluginType.Label())) by { GetLast(ms, 4); }
    GetLast(ms, 5);
  }

  /** The bundle paths are fixed and the plugin starts enabled. */
  lemma NevermoreJsonFixedFields(name: string, author: string, email: string, url: string,
                                 pluginType: PluginType, permissions: seq<Permission>)
    ensures var ms := NevermoreJson(name, author, email, url, pluginType, permissions).members;
            && Get(ms, "pluginPath") == Some(JString("dist/plugin.bundle.js"))
            && Get(ms, "frontendPath") == Some(JString("dist/frontend.bundle.js"))
            && Get(ms, "enabled") == Some(JBool(true))
  {
    var ms := NevermoreJson(name, author, email, url, pluginType, permissions).members;
    GetLast(ms, 6);
    GetLast(ms, 7);
    GetLast(ms, 8);
  }

  /** The description never reaches `nevermore.json`, whatever the answers. */
  lemma NoDescriptionInNevermoreJson(name: string, author: string, email: string, url: string,
                                     pluginType: PluginType, permissions: seq<Permission>)
    ensures "description" !in Keys(NevermoreJson(name, author, email, url, pluginType, permissions).members)
  {
  }

  /** The plugin type written is one of the three offered labels, and every
      permission written is one of the seven offered labels. */
  lemma ChoicesWritten(pluginType: PluginType, permissions: seq<Permission>)
    ensures pluginType.Label() in PluginTypeChoices
    ensures forall i :: 0 <= i < |permissions| ==>
              PermissionLabels(permissions)[i].JString?
              && PermissionLabels(permissions)[i].s in PermissionChoices
  {
  }

  /** Both variants carry the name and the author. */
  lemma PackageJsonIdentity(name: string, author: string, description: string, isTypescript: bool)
    ensures var ms := PackageJson(name, author, description, isTypescript).members;
            && Get(ms, "name") == Some(JString(name))
            && Get(ms, "author") == Some(JString(author))
  {
    var ms := PackageJson(name, author, description, isTypescript).members;
    GetLast(ms, 0);
    if isTypescript {
      GetLast(ms, 3);
    } else {
      GetLast(ms, 2);
    }
  }

  /** Both variants carry version `0.0.0`, `private: true` and the single
      `react` dependency. */
  lemma PackageJsonCommonFields(name: string, author: string, description: string, isTypescript: bool)
    ensures var ms := PackageJson(name, author, description, isTypescript).members;
            && Get(ms, "version") == Some(JString("0.0.0"))
            && Get(ms, "private") == Some(JBool(true))
            && Get(ms, "dependencies") == Some(JObject([("react", JString("^17.0.2"))]))
  {
    var ms := PackageJson(name, author, description, isTypescript).members;
    GetLast(ms, 1);
    GetLast(ms, |ms| - 1);
    if isTypescript {
      GetLast(ms, 4);
    } else {
      GetLast(ms, 3);
    }
  }

  /** Only the Typescript variant carries the description. */
  lemma DescriptionOnlyInTypescript(name: string, author: string, description: string, isTypescript: bool)
    ensures var ms := PackageJson(name, author, description, isTypescript).members;
            && (isTypescript ==> Get(ms, "description") == Some(JString(description)))
            && (!isTypescript ==> "description" !in Keys(ms))
  {
    if isTypescript {
      GetLast(PackageJson(name, author, description, isTypescript).members, 2);
    }
  }

  /** The `scripts` object is the same in both variants, with the eight keys
      `build-js-dev`, `build-js`, `deploy`, `deploy-dev`, `run-local`,
      `build`, `log`, `develop`. */
  lemma ScriptsAgree(name: string, author: string, description: string)
    ensures var ts := PackageJson(name, author, description, true).members;
            var js := PackageJson(name, author, description, false).members;
            && Get(ts, "scripts") == Get(js, "scripts")
            && Get(ts, "scripts") == Some(JObject(Scripts))
            && Keys(Scripts) == ["build-js-dev", "build-js", "deploy", "deploy-dev",
                                 "run-local", "build", "log", "develop"]
  {
    GetLast(PackageJson(name, author, description, true).members, 5);
    GetLast(PackageJson(name, author, description, false).members, 4);
  }

  /** The generated `devDependencies` member is the Typescript list in the
      Typescript variant and the Javascript list otherwise, so the two facts
      below hold of the written documents. */
  lemma PackageJsonDevDependencies(name: string, author: string, description: string, isTypescript: bool)
    ensures Get(PackageJson(name, author, description, isTypescript).members, "devDependencies")
            == Some(JObject(if isTypescript then TsDevDependencies else JsDevDependencies))
  {
    if isTypescript {
      GetLast(PackageJson(name, author, description, true).members, 6);
    } else {
      GetLast(PackageJson(name, author, description, false).members, 5);
    }
  }

  /** The Typescript `devDependencies` are the Javascript ones plus
      `ts-loader` and `typescript`. */
  lemma DevDependenciesAdded()
    ensures Get(TsDevDependencies, "ts-loader") == Some(JString("^9.2.3"))
    ensures Get(TsDevDependencies, "typescript") == Some(JString("^4.3.4"))
    ensures Get(JsDevDependencies, "ts-loader") == None
    ensures Get(JsDevDependencies, "typescript") == None
  {
    GetLast(TsDevDependencies, 4);
    GetLast(TsDevDependencies, 5);
    GetAbsent(JsDevDependencies, "ts-loader");
    GetAbsent(JsDevDependencies, "typescript");
  }

  /** Removing `ts-loader` and `typescript` from the Typescript
      `devDependencies` leaves exactly the Javascript ones, in order. */
  lemma DevDependenciesDiffer()
    ensures Without(TsDevDependencies, {"ts-loader", "typescript"}) == JsDevDependencies
  {
    WithoutRun(TsDevDependencies, {"ts-loader", "typescript"}, 4, 6);
    assert TsDevDependencies[..4] + TsDevDependencies[6..] == JsDevDependencies;
  }

  // ----- properties of the scaffolding run -----

  /** The template is copied first; the two JSON files are written only after
      a successful copy, `nevermore.json` first; no install is ever started. */
  lemma {:induction false} CreateOrdering(a: Answers, copySucceeds: bool)
    ensures var t := Create(a, copySucceeds);
            var ts := IsTypescript(a.language);
            var dir := ProjectDir(a.name);
            && t[0] == Copy(TemplateDir(ts), dir)
            && (forall i :: 0 <= i < |t| && t[i].Write? ==> copySucceeds)
            && (copySucceeds ==>
                  && t[1] == Write(JoinPath(dir, "nevermore.json"),
                                   NevermoreJson(a.name, a.author, a.email, a.url, a.pluginType, a.permissions))
                  && t[2] == Write(JoinPath(dir, "package.json"), PackageJson(a.name, a.author, a.description, ts))
                  && t[3] == Print(InstallHint(a.name)))
            && (forall i :: 0 <= i < |t| ==> !t[i].StartInstall? && !t[i].InstallExited?)
  {
  }
}

=== FILE: json.dfy ===
/** JSON documents as structured values.

    Objects are ORDERED member lists, because `JSON.stringify` emits the
    generated documents' keys in insertion order. A property read gives the
    LAST value written for a key, as `JSON.parse` does with repeated keys. */
module Json {
  import opened Wrappers

  datatype Json =
    | JNull
    | JBool(b: bool)
    | JNumber(n: real)
    | JString(s: string)
    | JArray(items: seq<Json>)
    | JObject(members: seq<Member>)

  type Member = (string, Json)

  /** The keys of an object, in insertion order. */
  function Keys(ms: seq<Member>): (ks: seq<string>)
    ensures |ks| == |ms|
    ensures forall i :: 0 <= i < |ms| ==> ks[i] == ms[i].0
  {
    seq(|ms|, i requires 0 <= i < |ms| => ms[i].0)
  }

  /** Property read on an object: the value of the last member named `k`,
      as a JavaScript object built by `JSON.parse` or by a literal holds it. */
  function Get(ms: seq<Member>, k: string): Option<Json> {
    LastBefore(ms, k, |ms|)
  }

  /** The value of the last member named `k` among the first `n`. */
  function LastBefore(ms: seq<Member>, k: string, n: nat): Option<Json>
    requires n <= |ms|
  {
    if n == 0 then None
    else if ms[n - 1].0 == k then Some(ms[n - 1].1)
    else LastBefore(ms, k, n - 1)
  }

  /** No key occurs twice; `JSON.stringify` of an object literal always
      produces such a member list. */
  predicate DistinctKeys(ms: seq<Member>) {
    forall i, j :: 0 <= i < j < |ms| ==> ms[i].0 != ms[j].0
  }

  /** The members whose keys are not in `ks`, in their original order. */
  function Without(ms: seq<Member>, ks: set<string>): seq<Member> {
    if |ms| == 0 then []
    else (if ms[0].0 in ks then [] else [ms[0]]) + Without(ms[1..], ks)
  }

  /** Removing keys distributes over concatenation. */
  lemma {:induction false} WithoutAppend(a: seq<Member>, b: seq<Member>, ks: set<string>)
    ensures Without(a + b, ks) == Without(a, ks) + Without(b, ks)
  {
    if |a| == 0 {
      assert a + b == b;
    } else {
      assert (a + b)[1..] == a[1..] + b;
      WithoutAppend(a[1..], b, ks);
    }
  }

  /** Removing keys that do not occur changes nothing. */
  lemma {:induction false} WithoutAll(ms: seq<Member>, ks: set<string>)
    requires forall i :: 0 <= i < |ms| ==> ms[i].0 in ks
    ensures Without(ms, ks) == []
  {
    if |ms| > 0 {
      WithoutAll(ms[1..], ks);
    }
  }

  /** Removing keys that occupy exactly the positions `i` up to `j` cuts out
      that run and keeps the rest in order. */
  lemma {:induction false} WithoutRun(ms: seq<Member>, ks: set<string>, i: nat, j: nat)
    requires i <= j <= |ms|
    requires forall k :: 0 <= k < |ms| ==> (ms[k].0 in ks <==> i <= k < j)
    ensures Without(ms, ks) == ms[..i] + ms[j..]
  {
    assert ms == ms[..i] + ms[i..j] + ms[j..];
    WithoutAppend(ms[..i] + ms[i..j], ms[j..], ks);
    WithoutAppend(ms[..i], ms[i..j], ks);
    WithoutNone(ms[..i], ks);
    WithoutAll(ms[i..j], ks);
    WithoutNone(ms[j..], ks);
  }

  lemma {:induction false} WithoutNone(ms: seq<Member>, ks: set<string>)
    requires forall i :: 0 <= i < |ms| ==> ms[i].0 !in ks
    ensures Without(ms, ks) == ms
  {
    if |ms| > 0 {
      WithoutNone(ms[1..], ks);
    }
  }

  /** A property read is `undefined` exactly when no member has the key. */
  lemma {:induction false} GetAbsent(ms: seq<Member>, k: string)
    ensures Get(ms, k).None? <==> k !in Keys(ms)
  {
    LastBeforeAbsent(ms, k, |ms|);
  }

  lemma {:induction false} LastBeforeAbsent(ms: seq<Member>, k: string, n: nat)
    requires n <= |ms|
    ensures LastBefore(ms, k, n).None? <==> forall i :: 0 <= i < n ==> ms[i].0 != k
  {
    if n > 0 {
      LastBeforeAbsent(ms, k, n - 1);
    }
  }

  /** A property read returns the member at position `i` when no later
      member has the same key. */
  lemma {:induction false} GetLast(ms: seq<Member>, i: nat)
    requires i < |ms|
    requires forall j :: i < j < |ms| ==> ms[j].0 != ms[i].0
    ensures Get(ms, ms[i].0) == Some(ms[i].1)
  {
    LastBeforeFrom(ms, i, |ms|);
  }

  lemma {:induction false} LastBeforeFrom(ms: seq<Member>, i: nat, n: nat)
    requires i < n <= |ms|
    requires forall j :: i < j < n ==> ms[j].0 != ms[i].0
    ensures LastBefore(ms, ms[i].0, n) == Some(ms[i].1)
  {
    if n - 1 != i {
      LastBeforeFrom(ms, i, n - 1);
    }
  }

  /** In an object without repeated keys, the member at position `i` is what a
      property read of its key returns. */
  lemma GetDistinct(ms: seq<Member>, i: nat)
    requires DistinctKeys(ms)
    requires i < |ms|
    ensures Get(ms, ms[i].0) == Some(ms[i].1)
  {
    GetLast(ms, i);
  }

  /** Appending a member never changes a property read of any other key. */
  lemma {:induction false} GetAppendOther(ms: seq<Member>, m: Member, k: string)
    requires m.0 != k
    ensures Get(ms + [m], k) == Get(ms, k)
  {
    LastBeforeAgree(ms + [m], ms, k, |ms|);
  }

  /** Reads that only look at positions on which two member lists agree
      give the same answer. */
  lemma {:induction false} LastBeforeAgree(a: seq<Member>, b: seq<Member>, k: string, n: nat)
    requires n <= |a| && n <= |b|
    requires forall i :: 0 <= i < n ==> a[i] == b[i]
    ensures LastBefore(a, k, n) == LastBefore(b, k, n)
  {
    if n > 0 {
      LastBeforeAgree(a, b, k, n - 1);
    }
  }
}

=== FILE: lifecycle.dfy ===
/** How the pieces meet: a project written by a scaffolder is later read by
    nevermore-scripts. The documents are compared as values; the text
    `JSON.stringify` writes is assumed to parse back to the same value. */
module Lifecycle {
  import opened Wrappers
  import opened Json
  import opened ClientConfig
  import opened Client
  import CreateApp
  import CreatePlugin
  import WebSocketUrl

  /** Reading back a generated worker `nevermore.json` yields the answers,
      the worker bundle path, the local endpoint and `enabled`. */
  lemma {:induction false} WorkerConfigRoundTrip(name: string, description: string)
    ensures Resolve(CreateApp.NevermoreJson(name, description))
            == Config(name, description, CreateApp.WorkerPath, CreateApp.LocalEndpoint, true)
  {
    CreateApp.NevermoreJsonShape(name, description);
  }

  /** A plugin `nevermore.json` read by this client supplies only the name
      and `enabled`: it has no description, no `workerPath` and no
      `graphqlEndpoint`, so those keep their defaults. */
  lemma {:induction false} PluginConfigAsSeenByClient(a: CreatePlugin.Answers)
    ensures Resolve(CreatePlugin.NevermoreJson(a.name, a.author, a.email, a.url, a.pluginType, a.permissions))
            == Config(a.name, "", "", "", true)
  {
    var ms := CreatePlugin.NevermoreJson(a.name, a.author, a.email, a.url, a.pluginType, a.permissions).members;
    assert Get(ms, "name") == Some(JString(a.name)) by {
      CreatePlugin.NevermoreJsonPassesAnswers(a.name, a.author, a.email, a.url, a.pluginType, a.permissions);
    }
    assert Get(ms, "enabled") == Some(JBool(true)) by {
      CreatePlugin.NevermoreJsonFixedFields(a.name, a.author, a.email, a.url, a.pluginType, a.permissions);
    }
    assert Get(ms, "description") == None && Get(ms, "workerPath") == None && Get(ms, "graphqlEndpoint") == None by {
      CreatePlugin.NevermoreJsonKeys(a.name, a.author, a.email, a.url, a.pluginType, a.permissions);
      GetAbsent(ms, "description");
      GetAbsent(ms, "workerPath");
      GetAbsent(ms, "graphqlEndpoint");
    }
  }

  /** Deploying a freshly scaffolded worker: the bundle is read from
      `dist/worker.bundle.js`, the log subscription goes to
      `ws://localhost:8000/graphql`, and the creation mutation carries the
      scaffolding answers, the bundle text and `enabled: true`. */
  lemma {:induction false} FreshWorkerDeploy(name: string, description: string, code: string, inv: Invocation,
                                             parse: string -> Option<Json>, remote: Remote)
    requires !inv.ExitsAtParse() && "deploy" in inv.positional
    requires ConfigFileName in inv.files
    requires parse(inv.files[ConfigFileName]) == Some(CreateApp.NevermoreJson(name, description))
    requires CreateApp.WorkerPath in inv.files && inv.files[CreateApp.WorkerPath] == code
    ensures var t := Run(inv, parse, remote);
            && |t| >= 5
            && t[1] == ReadArtifact(CreateApp.WorkerPath)
            && t[3] == Subscribe("ws://" + CreateApp.LocalHost)
            && t[4] == CreateWorker(CreateApp.LocalEndpoint, name, description, code, true)
  {
    WorkerConfigRoundTrip(name, description);
    WebSocketUrl.RewriteHttp(CreateApp.LocalHost);
    RunSplit(inv, parse, remote);
  }
}

=== FILE: scaffold.dfy ===
/** What the two project scaffolders share: the language answer and the
    trace of steps a scaffolding run takes. File-system and process work is
    not performed; each step records what would be done, and the outcomes of
    the copy and of the install are inputs. */
module Scaffold {
  import opened Wrappers
  import opened Json

  const JavascriptChoice: string := "Javascript (JS)"
  const TypescriptChoice: string := "Typescript (TS)"

  /** The variant is Typescript exactly when that choice's label was picked. */
  function IsTypescript(language: string): (ts: bool)
    ensures ts <==> language == TypescriptChoice
  {
    language == TypescriptChoice
  }

  datatype Step =
    | Copy(template: string, target: string)
    | CopyFailed(message: string)
    | Write(path: string, doc: Json)
    | StartInstall(command: string)
      /** The install process reported its exit, with its code if it has one. */
    | InstallExited(code: Option<int>)
    | Print(text: string)

  /** `path.join(dir, file)` for a plain relative `dir` and file name. */
  function JoinPath(dir: string, file: string): string {
    dir + "/" + file
  }

  /** The project directory `path.join(".", name)`: for a package name (no
      `.` or `..` segments, not empty) the joined path is the name itself. */
  function ProjectDir(name: string): string {
    name
  }

  /** Any label other than the exact Typescript one, for example the
      lower-case `typescript (ts)`, selects Javascript. */
  lemma LanguageChoices()
    ensures !IsTypescript(JavascriptChoice)
    ensures IsTypescript(TypescriptChoice)
    ensures !IsTypescript("typescript (ts)")
  {
  }
}

=== FILE: websocket_url.dfy ===
/** `httpUrlToWebSocketUrl` of nevermore-scripts: the subscription endpoint is
    derived from the GraphQL endpoint by `url.replace(/(http)(s)?\:\/\//, "ws$2://")`.

    The regular expression has no `g` flag, so only its leftmost match is
    replaced. At a position `i` it matches exactly when `"https://"` or
    `"http://"` starts there (the optional `s` is tried greedily, then given
    back), and the replacement keeps the `s` iff it was matched. Matching is
    case-sensitive. */
module WebSocketUrl {
  import opened Wrappers

  const Http: string := "http://"
  const Https: string := "https://"

  /** `p` occurs in `s` starting at position `i`. */
  predicate OccursAt(s: string, i: nat, p: string) {
    i + |p| <= |s| && s[i..i + |p|] == p
  }

  /** The pattern `(http)(s)?://` matches `s` at position `i`. */
  predicate MatchesAt(s: string, i: nat) {
    OccursAt(s, i, Http) || OccursAt(s, i, Https)
  }

  /** No position of `s` at or after `from` starts a match. */
  predicate NoMatchFrom(s: string, from: nat) {
    forall j :: from <= j < |s| ==> !MatchesAt(s, j)
  }

  /** The leftmost position at or after `from` where the pattern matches. */
  function FirstMatchFrom(s: string, from: nat): (r: Option<nat>)
    requires from <= |s|
    decreases |s| - from
    ensures r.None? <==> NoMatchFrom(s, from)
    ensures r.Some? ==> from <= r.value < |s| && MatchesAt(s, r.value)
    ensures r.Some? ==> forall j :: from <= j < r.value ==> !MatchesAt(s, j)
  {
    if from == |s| then None
    else if MatchesAt(s, from) then Some(from)
    else FirstMatchFrom(s, from + 1)
  }

  /** The replacement `ws$2://` applied to the match at `i`: the captured
      `s`, if any, is kept. */
  function ReplaceMatch(url: string, i: nat): (r: string)
    requires MatchesAt(url, i)
    ensures r == url[..i] + "ws" + url[i + 4..]
  {
    var secure := OccursAt(url, i, Https);
    var scheme := if secure then Https else Http;
    var ws := if secure then "wss://" else "ws://";
    SchemeTail(url, i, scheme);
    assert ws == "ws" + scheme[4..];
    url[..i] + ws + url[i + |scheme|..]
  }

  /** What follows the `http` of an occurrence of a scheme at `i`. */
  lemma SchemeTail(url: string, i: nat, scheme: string)
    requires |scheme| >= 4 && OccursAt(url, i, scheme)
    ensures url[i + 4..] == scheme[4..] + url[i + |scheme|..]
  {
    assert url[i + 4..] == url[i + 4..i + |scheme|] + url[i + |scheme|..];
    assert url[i + 4..i + |scheme|] == url[i..i + |scheme|][4..];
  }

  /** The rewritten endpoint. Where the leftmost match starts at `i`, the
      four letters `http` are replaced by `ws`: `http://` becomes `ws://`
      and `https://` becomes `wss://`. Everything else is kept. */
  function ToWebSocketUrl(url: string): (r: string)
    ensures forall i :: FirstMatchFrom(url, 0) == Some(i) ==> r == url[..i] + "ws" + url[i + 4..]
  {
    match FirstMatchFrom(url, 0)
    case None => url
    case Some(i) => ReplaceMatch(url, i)
  }

  /** The URL comes back unchanged exactly when it contains neither
      `http://` nor `https://`; otherwise it is two characters shorter. */
  lemma UnchangedIffNoMatch(url: string)
    ensures ToWebSocketUrl(url) == url <==> NoMatchFrom(url, 0)
    ensures !NoMatchFrom(url, 0) ==> |ToWebSocketUrl(url)| == |url| - 2
  {
  }

  /** An independent, declarative statement of what the replacement does:
      either nothing matches and the URL is unchanged, or the match at the
      leftmost matching position `i` has its `http` replaced by `ws`. */
  ghost predicate IsLeftmostRewrite(url: string, r: string) {
    || (NoMatchFrom(url, 0) && r == url)
    || exists i :: 0 <= i < |url| && MatchesAt(url, i) && LeftmostAt(url, i)
                   && r == url[..i] + "ws" + url[i + 4..]
  }

  /** No position before `i` matches. */
  ghost predicate LeftmostAt(url: string, i: nat) {
    forall j :: 0 <= j < i ==> !MatchesAt(url, j)
  }

  /** The function meets the declarative statement. */
  lemma ToWebSocketUrlIsLeftmostRewrite(url: string)
    ensures IsLeftmostRewrite(url, ToWebSocketUrl(url))
  {
    match FirstMatchFrom(url, 0)
    case None =>
    case Some(i) =>
      assert LeftmostAt(url, i);
  }

  /** The declarative statement determines the result: there is only one
      leftmost match, so no other rewrite satisfies it. */
  lemma {:induction false} LeftmostRewriteUnique(url: string, r1: string, r2: string)
    requires IsLeftmostRewrite(url, r1)
    requires IsLeftmostRewrite(url, r2)
    ensures r1 == r2
  {
    if !NoMatchFrom(url, 0) {
      var i1 :| 0 <= i1 < |url| && MatchesAt(url, i1) && LeftmostAt(url, i1)
                && r1 == url[..i1] + "ws" + url[i1 + 4..];
      var i2 :| 0 <= i2 < |url| && MatchesAt(url, i2) && LeftmostAt(url, i2)
                && r2 == url[..i2] + "ws" + url[i2 + 4..];
    }
  }

  lemma FirstMatchAtStart(url: string)
    requires MatchesAt(url, 0)
    ensures FirstMatchFrom(url, 0) == Some(0)
  {
  }

  /** `http://` followed by anything becomes `ws://` followed by the same
      text; later `http://` substrings survive. */
  lemma RewriteHttp(rest: string)
    ensures ToWebSocketUrl(Http + rest) == "ws://" + rest
  {
    var url := Http + rest;
    assert MatchesAt(url, 0) by { assert url[0..|Http|] == Http; }
    FirstMatchAtStart(url);
    assert ToWebSocketUrl(url) == url[..0] + "ws" + url[4..];
    assert url[4..] == "://" + rest;
    assert ToWebSocketUrl(url) == "ws" + ("://" + rest);
  }

  /** `https://` followed by anything becomes `wss://` followed by the same text. */
  lemma RewriteHttps(rest: string)
    ensures ToWebSocketUrl(Https + rest) == "wss://" + rest
  {
    var url := Https + rest;
    assert MatchesAt(url, 0) by { assert url[0..|Https|] == Https; }
    FirstMatchAtStart(url);
    assert ToWebSocketUrl(url) == url[..0] + "ws" + url[4..];
    assert url[4..] == "s://" + rest;
    assert ToWebSocketUrl(url) == "ws" + ("s://" + rest);
  }

  /** Matching is case-sensitive: a URL without a lower-case `h` (for example
      `HTTP://HOST/GRAPHQL`) comes back unchanged. */
  lemma NoLowerCaseHUnchanged(url: string)
    requires 'h' !in url
    ensures ToWebSocketUrl(url) == url
  {
    forall j | 0 <= j < |url| ensures !MatchesAt(url, j) {
      assert url[j] != 'h';
      OccursAtHead(url, j, Http);
      OccursAtHead(url, j, Https);
    }
  }

  /** An occurrence of `p` at `j` starts with the first character of `p`. */
  lemma OccursAtHead(s: string, j: nat, p: string)
    ensures OccursAt(s, j, p) && |p| > 0 ==> s[j] == p[0]
  {
    if OccursAt(s, j, p) && |p| > 0 {
      assert s[j..j + |p|][0] == s[j];
    }
  }

  /** Only the leftmost occurrence is rewritten: a second `http://`, as in
      `http://a/?next=http://b`, survives. */
  lemma LeftmostOnly(a: string, b: string)
    ensures ToWebSocketUrl(Http + a + Http + b) == "ws://" + a + Http + b
  {
    assert Http + a + Http + b == Http + (a + Http + b);
    RewriteHttp(a + Http + b);
  }

  /** An upper-case scheme is not rewritten. */
  lemma UpperCaseSchemeKept()
    ensures ToWebSocketUrl("HTTPS://HOST/GRAPHQL") == "HTTPS://HOST/GRAPHQL"
  {
    NoLowerCaseHUnchanged("HTTPS://HOST/GRAPHQL");
  }
}

=== FILE: wrappers.dfy ===
/** The optional-value type used throughout the model: a JavaScript property
    that is `undefined`, a file that cannot be read, a regex that does not match. */
module Wrappers {

  datatype Option<+T> = None | Some(value: T) {

    /** The wrapped value, or `default` when there is none. */
    function GetOr(default: T): (r: T)
      ensures Some? ==> r == value
      ensures None? ==> r == default
    {
      match this
      case Some(v) => v
      case None => default
    }
  }
}
